=== FILE: README.md ===
# Damage-report repository, modelled in Dafny

This project models the report repository of a small damage-report web
backend (`app/repositories/report_repository.py`). The repository keeps
reports in a relational table and their photos in a flat upload directory.
The model is a state machine over two resources:

- the table, a map from integer id to a `Report` row (id, descriptive columns, optional `photoUrl`);
- the upload directory, the set of file names it holds.

Every operation is a pure function from a `State` (table, directory) to a
`Step` (new state, returned value). The environment's choices are parameters
bundled in an `Oracle`:

- the id the store assigns to a new row;
- the random UUID token for a new file name;
- whether writing an upload's bytes succeeds, and if not, whether the partial file is left behind;
- whether removing an existing file succeeds.

Modules:

- `PathText` (`path_text.dfy`): the string operations the photo helpers rely on, for POSIX paths. These are the reverse search, `os.path.splitext`, lower-casing, `os.path.basename` and `str.strip("/")`.
- `PhotoStore` (`photo_store.dfy`): the save rule (`_save_photo_to_disk`) and the delete-file rule (`_delete_photo_from_disk`), with their guards and their round trip.
- `Pagination` (`pagination.dfy`): the descending id order and the OFFSET/LIMIT window, characterised by rank.
- `ReportRepository` (`report_repository.py` operations: create, read one, read a page, count, update, delete) and the invariant `Consistent`: every row carries the table's columns, every photo URL is null or serves a file on disk, and no two rows share a file.
- `RepositoryProperties`: invariant preservation, the photo-replacement and failed-save rules, idempotent delete, and the two ordering rules stated over intermediate durable states.
- `Scenarios`: concrete runs, including the extension and delete-guard edge cases.

A failed write can leave the partial file behind. The cleanup at lines 59-63 removes the partial file inside its own `try` and swallows a failure of that removal, while the save still returns None. `WriteFailed(leftover: true)` models this case. "The directory is unchanged" is proved only for the other failure cases.

The report table has a fixed set of descriptive columns, `State.columns`. Every row carries all of them; a column that create does not supply is NULL (`None`). An update sets every supplied key that is a column of the table, which is what the attribute check at line 190 tests on a mapped row.

## Model

| member | source | states |
|---|---|---|
| `PathText.SplitExt` | app/repositories/report_repository.py:36 | root and extension concatenate back to the file name; the extension is empty or a dot followed by no further dot and no slash; a non-empty extension has a non-dot character before it in the last path component |
| `PathText.SplitExtLeadingDots` | app/repositories/report_repository.py:36 | a last dot preceded only by dots in its component gives an empty extension, so hidden names such as ".png" have none |
| `PathText.SplitExtFindsExtension` | app/repositories/report_repository.py:36 | conversely, a final dot with a non-dot character before it in the last path component yields exactly that suffix as the extension |
| `PathText.LastIndexOf` | app/repositories/report_repository.py:36 | the reverse search returns -1 or a position holding the character, with no occurrence after it |
| `PathText.Lower` | app/repositories/report_repository.py:37 | lower-casing keeps the length and maps every character through ASCII case folding, position by position |
| `PathText.StripLeft` | app/repositories/report_repository.py:77 | the result is a suffix of the input, only slashes were dropped, and it does not start with a slash |
| `PathText.StripRight` | app/repositories/report_repository.py:77 | the result is a prefix of the input, only slashes were dropped, and it does not end with a slash |
| `PathText.Basename` | app/repositories/report_repository.py:74-76 | the last component has no slash, is a suffix of the URL, and is the whole URL or preceded by a slash |
| `PhotoStore.Save` | app/repositories/report_repository.py:28-64 | None exactly when the upload is absent, unnamed, has a lower-cased extension outside .jpg/.jpeg/.png, or the write fails; in those cases the directory is unchanged unless a failed cleanup left the partial file; on success the URL is "/uploads/" + token + lower-cased extension and exactly that file is added |
| `PhotoStore.SaveAddsOneNewFile` | app/repositories/report_repository.py:45-56 | with a fresh UUID token a successful save adds one file that was not on disk, and the returned URL both serves and deletes as that file |
| `PhotoStore.DeleteTarget` | app/repositories/report_repository.py:70-81 | the file a URL deletes, when there is one, is a non-empty name without slashes |
| `PhotoStore.DeleteTargetCharacterized` | app/repositories/report_repository.py:70-81 | a URL deletes file f if and only if it is a directory part containing some non-slash character, a slash, then f; so empty URLs, "/uploads/", "abc.png" and "/abc.png" delete nothing |
| `PhotoStore.DeleteFile` | app/repositories/report_repository.py:66-90 | deleting never fails, only ever removes the URL's target, and removes it whenever removal succeeds; a removal that raises leaves the directory unchanged; every other file stays |
| `PhotoStore.UploadUrlTarget` | app/repositories/report_repository.py:74-85 | the URL of a stored file deletes that same file |
| `PhotoStore.ServedName` | app/main.py:42-47 | a URL served from the upload mount names one plain file and is "/uploads/" followed by that name |
| `PhotoStore.ServedNameIsDeleteTarget` | app/repositories/report_repository.py:74-85 | for a URL that serves a file, deletion targets that same file |
| `PhotoStore.FreshStemGivesNewName` | app/repositories/report_repository.py:45-47 | a token that prefixes no file on disk gives a name not yet on disk, whatever the extension |
| `PhotoStore.SaveThenDeleteRestores` | app/repositories/report_repository.py:45-86 | round trip: deleting the URL a successful save returned restores the directory to its prior contents |
| `Pagination.SortedDesc` | app/repositories/report_repository.py:151 | the ids, each exactly once, in strictly descending order |
| `Pagination.Window` | app/repositories/report_repository.py:152-153 | the offset/limit window has length min(limit, size - skip) (0 past the end) and keeps the elements from position skip on, in order |
| `Pagination.WindowsTile` | app/repositories/report_repository.py:152-153 | a window followed by the next window is the window of their combined length |
| `Pagination.PageIds` | app/repositories/report_repository.py:149-155 | a page has at most limit ids, all in the table, strictly descending |
| `Pagination.RankOfPosition` | app/repositories/report_repository.py:151 | the id at position i of the descending order has exactly i greater ids |
| `Pagination.PageMembership` | app/repositories/report_repository.py:149-155 | an id is on the page if and only if it is in the table and the number of greater ids is at least skip and below skip + limit |
| `Pagination.FullPage` | app/repositories/report_repository.py:149-155 | a page from 0 with a limit of at least the number of ids lists every id, greatest first |
| `ReportRepository.Create` | app/repositories/report_repository.py:92-126 | exactly one row is added under the store's fresh id, with every column of the table: the supplied value where data gives one, NULL elsewhere; existing rows are unchanged; the photo URL is set exactly when the upload is accepted and written, and is the save's result; no photo leaves the directory unchanged |
| `ReportRepository.GetById` | app/repositories/report_repository.py:128-141 | a report is returned exactly when a row has that id, and it is that row |
| `ReportRepository.GetPage` | app/repositories/report_repository.py:143-159 | skip defaults to 0 and limit to 10; at most limit rows, the table's rows for the page's ids, in the page's order |
| `ReportRepository.Count` | app/repositories/report_repository.py:161-167 | the count is 0 exactly when the table is empty |
| `ReportRepository.ApplyPatch` | app/repositories/report_repository.py:184-193 | every supplied key that is a column of the table takes the patch's value, whether or not the row had it; every other column keeps its value; non-column keys are ignored |
| `ReportRepository.SetPresentColumns` | app/repositories/report_repository.py:188-193 | the key-by-key loop that sets a key only when the table has that column computes exactly the partial update, in any iteration order |
| `ReportRepository.Update` | app/repositories/report_repository.py:169-209 | a missing id returns None and changes nothing; otherwise only that row changes, keeping its id and taking the patch; a saved new photo replaces the URL after removal of the old file is attempted, and a removal that raises leaves the old file on disk as an orphan; a failed save keeps the old URL |
| `ReportRepository.Delete` | app/repositories/report_repository.py:211-231 | a missing id returns None and changes nothing; otherwise the former row is returned, it alone is removed, and removal of its photo file is attempted: the file is gone when removal succeeds and stays on disk as an orphan when it raises |
| `ReportRepository.DeleteStages` | app/repositories/report_repository.py:218-226 | the commit removes the row while the directory is still untouched; the attempt to remove the file comes after |
| `ReportRepository.UpdateStages` | app/repositories/report_repository.py:195-207 | the new file is written, then removal of the old file is attempted, both while the table still holds the old row; the commit comes last |
| `RepositoryProperties.CreatePreservesConsistency` | app/repositories/report_repository.py:100-124 | with a fresh token, create keeps every photo URL pointing at an existing file and no file shared |
| `RepositoryProperties.CreateOutcome` | app/repositories/report_repository.py:100-126 | the new row is readable and the count grows by one; an accepted, written photo is a file new on disk; otherwise there is no photo and no new file |
| `RepositoryProperties.UpdateReplacesPhoto` | app/repositories/report_repository.py:195-200 | after a successful replace the row references the new file, which is on disk and was not before, the old file is gone, and no other file changes |
| `RepositoryProperties.UpdateKeepsPhotoOnFailedSave` | app/repositories/report_repository.py:195-204 | a failed new-photo save keeps the old URL and its file on disk, and the directory is unchanged unless the partial file was left |
| `RepositoryProperties.UpdateSetsSuppliedColumns` | app/repositories/report_repository.py:184-193 | in a consistent state an updated row has exactly the table's columns, every supplied column takes the patch's value and every other column keeps its value |
| `RepositoryProperties.ReplacingRowKeepsConsistency` | app/repositories/report_repository.py:182-206 | replacing a row with one that keeps its id and columns, and whose photo is on disk and unshared, keeps the invariant |
| `RepositoryProperties.UpdateReplacingKeepsConsistency` | app/repositories/report_repository.py:195-206 | the invariant holds after an update whose new photo was saved |
| `RepositoryProperties.UpdateKeepingKeepsConsistency` | app/repositories/report_repository.py:182-206 | the invariant holds after an update that keeps the old photo |
| `RepositoryProperties.UpdatePreservesConsistency` | app/repositories/report_repository.py:178-209 | with a fresh token, update keeps the invariant |
| `RepositoryProperties.UpdateSaveFirstIsSafe` | app/repositories/report_repository.py:195-197 | new before old: the state after the new file is written still satisfies the invariant |
| `RepositoryProperties.UpdateCommitWindow` | app/repositories/report_repository.py:197-206 | the old file is removed before the commit, so replacing an existing photo, when the old file's removal succeeds, passes through a state whose table references a deleted file |
| `RepositoryProperties.UpdateKeepsOldFileWhenRemovalRaises` | app/repositories/report_repository.py:84-90 | when removing the old file raises, an update with a new photo removes no file, at the stage before the commit and after it |
| `RepositoryProperties.DeleteRemovesRowAndFile` | app/repositories/report_repository.py:216-229 | deleting an existing report makes it unreadable and decrements the count; when the file removal succeeds, exactly its photo file, if any, is removed |
| `RepositoryProperties.DeleteKeepsFileWhenRemovalRaises` | app/repositories/report_repository.py:66-90 | when the file removal raises, delete still returns and removes the row, and the directory is unchanged: the file is left as an orphan |
| `RepositoryProperties.DeleteIsIdempotent` | app/repositories/report_repository.py:216-231 | a second delete of the same id returns None and changes nothing |
| `RepositoryProperties.DeleteStagesConsistent` | app/repositories/report_repository.py:218-226 | commit before file removal: every durable state of a delete satisfies the invariant |
| `RepositoryProperties.FileFirstWouldDangle` | app/repositories/report_repository.py:222-226 | successfully removing the file before the commit would pass through a state referencing a deleted file |
| `RepositoryProperties.PageGreatestIdFirst` | app/repositories/report_repository.py:149-154 | page rows have strictly descending ids |
| `RepositoryProperties.PageHoldsRanks` | app/repositories/report_repository.py:149-155 | a row is on a page if and only if the number of rows with a greater id is at least skip and below skip + limit |
| `RepositoryProperties.PageRowAt` | app/repositories/report_repository.py:149-159 | an id is on the page exactly when its row is among the page's rows |
| `RepositoryProperties.DefaultPageHoldsTenGreatestIds` | app/repositories/report_repository.py:143-155 | with the default arguments the page has min(count, 10) rows, and a row is on it exactly when fewer than ten rows have a greater id |
| `RepositoryProperties.PagesTile` | app/repositories/report_repository.py:149-155 | the page at skip followed by the page at skip + m is the page at skip of length m + n |
| `RepositoryProperties.CountMatchesFullPage` | app/repositories/report_repository.py:161-167 | the count equals the length of a page from 0 of that many rows, and that page holds every row |
| `Scenarios.UpperCaseExtensionFolds` | app/repositories/report_repository.py:36-39 | "X.PNG" has extension ".png" and is accepted |
| `Scenarios.GifIsRefused` | app/repositories/report_repository.py:36-43 | "crack.gif" has extension ".gif" and is refused |
| `Scenarios.LastDotCounts` | app/repositories/report_repository.py:36 | "archive.tar.jpeg" has extension ".jpeg" |
| `Scenarios.HiddenFileHasNoExtension` | app/repositories/report_repository.py:36-43 | ".png" and "..png" have no extension, so ".png" is refused |
| `Scenarios.DirectoryDotIsNotExtension` | app/repositories/report_repository.py:36 | "album.d/photo" has no extension |
| `Scenarios.UploadUrlIsDeleted` | app/repositories/report_repository.py:74-85 | "/uploads/x.png" deletes "x.png" |
| `Scenarios.BareNameIsNotDeleted` | app/repositories/report_repository.py:77-81 | "abc.png" equals itself stripped of slashes, so it deletes nothing |
| `Scenarios.RootNameIsNotDeleted` | app/repositories/report_repository.py:77-81 | "/abc.png" equals its last component once stripped, so it deletes nothing |
| `Scenarios.DirectoryUrlIsNotDeleted` | app/repositories/report_repository.py:77-81 | "/uploads/" has an empty last component, so it deletes nothing |
| `Scenarios.RoadPhotoAccepted` | app/repositories/report_repository.py:36-39 | "road.PNG" is accepted with extension ".png" |
| `Scenarios.PotholeCreated` | app/repositories/report_repository.py:100-126 | creating a pothole report with "road.PNG" gives id 1, the URL of "<token>.png", exactly that file on disk, and a consistent state |
| `Scenarios.PotholeScenario` | app/repositories/report_repository.py:92-231 | a pothole report with a PNG photo gets id 1 and "/uploads/<token>.png", whose file is on disk; deleting it removes the file and makes the report unreadable |
| `Scenarios.GifScenario` | app/repositories/report_repository.py:100-126 | a report with a GIF photo is still created, without a photo and with no file written |
| `Scenarios.LateColumnIsSet` | app/repositories/report_repository.py:184-193 | a column create left NULL is set by a later update that supplies it, and the other column keeps its value |

## Left out

- The web application in `app/main.py` (CORS middleware, root and health endpoints) has no repository logic. Of the static-file mount, only the URL-to-file mapping is modelled, as `ServedName`.
- Database sessions, queries and refreshes are not modelled. The table is a map and every commit succeeds. So the model does not cover a failing commit. After such a failure, create would leave the saved file as an orphan, and update would leave the row referencing the old file it already removed. `UpdateCommitWindow` exhibits that intermediate state.
- The random UUID is an oracle token. `UuidText` and `FreshStem` are hypotheses of the lemmas that need a new name. A collision, where the write would overwrite an existing file, is not modelled.
- Which id the store assigns is an oracle value. `Create` requires it to be unused. Nothing ties id order to creation order, so the pagination lemmas speak of greater ids, not of newer reports.
- Chunked asynchronous copying and closing of the upload are not modelled. Only the outcome of writing counts, as `WriteOutcome`.
- Pydantic dumping, aliasing and `exclude_unset` are not modelled. Create data and update patches are maps of the supplied keys only. A column value is NULL or an opaque string.
- Create: requires the create data to name neither `id` nor `photo_url`, and only columns of the table. The constructor call at line 118 would raise on a second `photo_url` or on a keyword that is not a mapped attribute, after the photo was already saved; the create schema is taken to name only descriptive columns, so that raise is not modelled. The id is assigned by the store.
- Create: a column the data does not supply is NULL. Column defaults declared in the report class are not part of this model.
- Update: requires the patch to name neither `id` nor `photo_url`. The update schema is not part of this model and is taken to carry descriptive columns only. "Exists on Report" is modelled as "is a column of the table". Non-column Python attributes of the row object are not modelled.
- Lower-casing is ASCII-only. For the allow-list decision this is exact, because no non-ASCII character lower-cases to a letter of ".jpg", ".jpeg" or ".png".
- A missing upload file name (None) is modelled as the empty name. The code treats both alike.
- `skip` and `limit` are natural numbers. Negative values are not modelled.
- Logging has no effect on control flow and is left out.
- Concurrent requests are not modelled. Each operation is one atomic transition.

=== FILE: options.dfy ===
/** The optional value the repository returns for "nothing": Python's None. */
module Options {

  datatype Option<+T> = None | Some(value: T)
}

=== FILE: pagination.dfy ===
/**
  The ordering and windowing of a page of reports: ids in descending
  order, the first `skip` dropped, at most `limit` kept.
 */
module Pagination {

  /** Each element is greater than every element after it. */
  predicate StrictlyDescending(s: seq<int>)
  {
    forall i, j :: 0 <= i < j < |s| ==> s[i] > s[j]
  }

  function Min(a: int, b: int): int
  {
    if a <= b then a else b
  }

  /** Every non-empty finite set of ids has a greatest element. */
  lemma {:induction false} MaxExists(ids: set<int>)
    requires ids != {}
    ensures exists m :: m in ids && forall x :: x in ids ==> x <= m
  {
    if !(exists y :: y in ids) {
      assert false;
    }
    var y :| y in ids;
    var rest := ids - {y};
    assert ids == rest + {y};
    if rest == {} {
      assert ids == {y};
      assert y in ids && forall x :: x in ids ==> x <= y;
    } else {
      MaxExists(rest);
      var m :| m in rest && forall x :: x in rest ==> x <= m;
      var top := if y > m then y else m;
      assert forall x :: x in ids ==> x in rest || x == y;
      assert top in ids && forall x :: x in ids ==> x <= top;
    }
  }

  /** The greatest id of a non-empty set. */
  function MaxOf(ids: set<int>): (m: int)
    requires ids != {}
    ensures m in ids && forall x :: x in ids ==> x <= m
  {
    MaxExists(ids);
    var m :| m in ids && forall x :: x in ids ==> x <= m;
    m
  }

  /** All ids of a set, greatest first. */
  function SortedDesc(ids: set<int>): (r: seq<int>)
    ensures StrictlyDescending(r)
    ensures |r| == |ids|
    ensures forall x :: x in r <==> x in ids
    decreases |ids|
  {
    if ids == {} then []
    else
      var m := MaxOf(ids);
      [m] + SortedDesc(ids - {m})
  }

  /**
    What an OFFSET `skip` LIMIT `limit` query keeps of an ordered result: the
    elements from position `skip` on, at most `limit` of them, in order.
   */
  function Window<T>(s: seq<T>, skip: nat, limit: nat): (r: seq<T>)
    ensures |r| == if skip >= |s| then 0 else Min(limit, |s| - skip)
    ensures forall i :: 0 <= i < |r| ==> r[i] == s[skip + i]
  {
    var rest := if skip <= |s| then s[skip..] else [];
    if limit <= |rest| then rest[..limit] else rest
  }

  /** Consecutive windows tile: the page at `skip` followed by the next one is one longer window. */
  lemma WindowsTile<T>(s: seq<T>, skip: nat, m: nat, n: nat)
    ensures Window(s, skip, m) + Window(s, skip + m, n) == Window(s, skip, m + n)
  {
    var a := Window(s, skip, m);
    var b := Window(s, skip + m, n);
    var c := Window(s, skip, m + n);
    assert |a + b| == |c|;
    forall i | 0 <= i < |c|
      ensures (a + b)[i] == c[i]
    {
      if i < |a| {
        assert (a + b)[i] == a[i];
      } else {
        assert (a + b)[i] == b[i - |a|];
      }
    }
  }

  /** The ids of one page, greatest first. */
  function PageIds(ids: set<int>, skip: nat, limit: nat): (r: seq<int>)
    ensures |r| <= limit
    ensures StrictlyDescending(r)
    ensures forall x :: x in r ==> x in ids
  {
    var all := SortedDesc(ids);
    var w := Window(all, skip, limit);
    assert forall i :: 0 <= i < |w| ==> w[i] in all;
    w
  }

  /** How many ids of the set are greater than `x`: its position in descending order. */
  function Rank(ids: set<int>, x: int): nat
  {
    |set y | y in ids && y > x|
  }

  /** A strictly descending sequence has no repeated element, so its first `i` elements are `i` ids. */
  lemma {:induction false} DescendingPrefixCard(s: seq<int>, i: nat)
    requires StrictlyDescending(s) && i <= |s|
    ensures |set j | 0 <= j < i :: s[j]| == i
  {
    if i > 0 {
      DescendingPrefixCard(s, i - 1);
      var a := set j | 0 <= j < i - 1 :: s[j];
      var b := set j | 0 <= j < i :: s[j];
      assert b == a + {s[i - 1]};
      assert s[i - 1] !in a;
    }
  }

  /** The id at position `i` of the descending order has exactly `i` greater ids. */
  lemma RankOfPosition(ids: set<int>, i: nat)
    requires i < |SortedDesc(ids)|
    ensures Rank(ids, SortedDesc(ids)[i]) == i
  {
    var sd := SortedDesc(ids);
    var x := sd[i];
    var above := set y | y in ids && y > x;
    var prefix := set j | 0 <= j < i :: sd[j];
    forall y | y in above
      ensures y in prefix
    {
      assert y in sd;
      var k :| 0 <= k < |sd| && sd[k] == y;
      assert k < i;
    }
    forall y | y in prefix
      ensures y in above
    {
      var k :| 0 <= k < i && sd[k] == y;
      assert sd[k] in sd;
    }
    assert above == prefix;
    DescendingPrefixCard(sd, i);
  }

  /**
    An id is on the page exactly when it is in the set and the number of
    greater ids is at least `skip` and below `skip + limit`.
   */
  lemma PageMembership(ids: set<int>, skip: nat, limit: nat, x: int)
    ensures x in PageIds(ids, skip, limit) <==> x in ids && skip <= Rank(ids, x) < skip + limit
  {
    var sd := SortedDesc(ids);
    var w := PageIds(ids, skip, limit);
    assert w == Window(sd, skip, limit);
    if x in w {
      var i :| 0 <= i < |w| && w[i] == x;
      assert w[i] == sd[skip + i];
      RankOfPosition(ids, skip + i);
    }
    if x in ids && skip <= Rank(ids, x) < skip + limit {
      assert x in sd;
      var k :| 0 <= k < |sd| && sd[k] == x;
      RankOfPosition(ids, k);
      assert w[k - skip] == x;
    }
  }

  /** A page starting at zero and long enough holds every id, greatest first. */
  lemma FullPage(ids: set<int>, limit: nat)
    requires |ids| <= limit
    ensures PageIds(ids, 0, limit) == SortedDesc(ids)
  {
  }
}

=== FILE: path_text.dfy ===
/**
  The string functions the photo store relies on, for POSIX paths:
  reverse search, extension splitting, ASCII lower-casing, last path
  component and slash stripping.
 */
module PathText {

  /** No character of `s` is `c`. */
  predicate Excludes(s: string, c: char)
  {
    forall k :: 0 <= k < |s| ==> s[k] != c
  }

  /** Every character of `s` is a slash (vacuously true of the empty string). */
  predicate AllSlashes(s: string)
  {
    forall k :: 0 <= k < |s| ==> s[k] == '/'
  }

  /** A single, non-empty path component. */
  predicate PlainName(f: string)
  {
    f != "" && Excludes(f, '/')
  }

  /** Position of the last `c` in `s`, or -1 when there is none. */
  function LastIndexOf(s: string, c: char): (r: int)
    ensures -1 <= r < |s|
    ensures r >= 0 ==> s[r] == c
    ensures forall k :: r < k < |s| ==> s[k] != c
  {
    if s == [] then -1
    else if s[|s| - 1] == c then |s| - 1
    else LastIndexOf(s[..|s| - 1], c)
  }

  /** The last occurrence is the one with no occurrence after it. */
  lemma LastIndexOfAt(s: string, c: char, i: int)
    requires 0 <= i < |s| && s[i] == c
    requires forall k :: i < k < |s| ==> s[k] != c
    ensures LastIndexOf(s, c) == i
  {
  }

  /** A string without `c` has no last occurrence of it. */
  lemma LastIndexOfAbsent(s: string, c: char)
    requires Excludes(s, c)
    ensures LastIndexOf(s, c) == -1
  {
  }

  /**
    Splitting a POSIX path into root and extension. The extension runs from
    the last dot of the final component to the end, and is empty when there
    is no such dot or when only dots precede it within the component
    (".png" and "..png" have no extension).
   */
  function SplitExt(p: string): (r: (string, string))
    ensures r.0 + r.1 == p
    ensures r.1 == [] || (r.1[0] == '.' && Excludes(r.1[1..], '.') && Excludes(r.1, '/'))
    ensures r.1 != [] ==> exists k :: LastIndexOf(p, '/') < k < |p| - |r.1| && p[k] != '.'
  {
    var sep := LastIndexOf(p, '/');
    var dot := LastIndexOf(p, '.');
    if sep < dot && exists k | sep + 1 <= k < dot :: p[k] != '.' then
      assert p[..dot] + p[dot..] == p;
      (p[..dot], p[dot..])
    else
      assert p + [] == p;
      (p, [])
  }

  /** The extension part of `SplitExt`. */
  function Extension(p: string): string
  {
    SplitExt(p).1
  }

  /**
    The converse of `SplitExt`'s contract: a final dot with a non-dot
    character before it in the same component yields exactly that suffix.
   */
  lemma SplitExtFindsExtension(p: string, k: int, d: int)
    requires 0 <= k < d < |p|
    requires p[d] == '.' && p[k] != '.'
    requires forall j :: d < j < |p| ==> p[j] != '.'
    requires forall j :: k <= j < |p| ==> p[j] != '/'
    ensures Extension(p) == p[d..]
  {
    var sep := LastIndexOf(p, '/');
    var dot := LastIndexOf(p, '.');
    assert dot == d;
    assert sep < k;
    assert sep + 1 <= k < dot && p[k] != '.';
  }

  /**
    A final dot preceded only by dots within its component starts no
    extension: hidden files such as ".png" and "..png" have none.
   */
  lemma SplitExtLeadingDots(p: string, d: int)
    requires 0 <= d < |p| && p[d] == '.'
    requires forall j :: d < j < |p| ==> p[j] != '.' && p[j] != '/'
    requires forall j :: LastIndexOf(p, '/') < j < d ==> p[j] == '.'
    ensures Extension(p) == ""
  {
  }

  /** ASCII lower-casing of one character; every other character is kept. */
  function LowerChar(c: char): char
  {
    if 'A' <= c <= 'Z' then (c as int - 'A' as int + 'a' as int) as char else c
  }

  /** Lower-casing character by character. */
  function Lower(s: string): (r: string)
    ensures |r| == |s|
    ensures forall i :: 0 <= i < |s| ==> r[i] == LowerChar(s[i])
  {
    if s == [] then [] else [LowerChar(s[0])] + Lower(s[1..])
  }

  /** The last path component: everything after the last slash. */
  function Basename(p: string): (r: string)
    ensures Excludes(r, '/')
    ensures |r| <= |p| && r == p[|p| - |r|..]
    ensures |r| < |p| ==> p[|p| - |r| - 1] == '/'
  {
    p[LastIndexOf(p, '/') + 1..]
  }

  /** Dropping every leading slash. */
  function StripLeft(s: string): (r: string)
    ensures |r| <= |s| && r == s[|s| - |r|..]
    ensures AllSlashes(s[..|s| - |r|])
    ensures r == [] || r[0] != '/'
  {
    if s != [] && s[0] == '/' then StripLeft(s[1..]) else s
  }

  /** Dropping every trailing slash. */
  function StripRight(s: string): (r: string)
    ensures |r| <= |s| && r == s[..|r|]
    ensures AllSlashes(s[|r|..])
    ensures r == [] || r[|r| - 1] != '/'
  {
    if s != [] && s[|s| - 1] == '/' then StripRight(s[..|s| - 1]) else s
  }

  /** Stripping slashes at both ends, as `str.strip("/")` does. */
  function StripSlashes(s: string): string
  {
    StripRight(StripLeft(s))
  }
}

=== FILE: photo_store.dfy ===
/**
  The photo store: the two private helpers of the report repository that
  touch the upload directory. The directory is flat, so it is modelled as
  the set of file names it holds. The random token, the outcome of writing
  the upload's bytes and the outcome of removing a file are supplied by the
  caller, since they come from the environment.
 */
module PhotoStore {
  import opened Options
  import opened PathText

  /** The extensions, lower-cased and with their dot, that a photo may carry. */
  const ValidImageExtensions: seq<string> := [".jpg", ".jpeg", ".png"]

  /** The public path under which stored photos are served. */
  const UploadPrefix: string := "/uploads/"

  /** The upload directory: the names of the files it holds. */
  type Directory = set<string>

  /** An incoming upload; an upload without a file name carries "". */
  datatype Upload = Upload(filename: string)

  /**
    How copying the upload's bytes to disk ends. On failure the partially
    written file is removed if it exists, and that removal may itself fail,
    leaving the partial file behind (`leftover`).
   */
  datatype WriteOutcome = Written | WriteFailed(leftover: bool)

  /** Whether removing an existing file succeeds or raises. */
  datatype Removal = Removes | RemoveRaises

  /** What a save returns (the public URL, or None) and the directory after it. */
  datatype Saved = Saved(url: Option<string>, dir: Directory)

  /** The shape of the random token: a lower-case hexadecimal UUID with dashes. */
  predicate UuidText(s: string)
  {
    && |s| == 36
    && forall i :: 0 <= i < |s| ==>
         if i == 8 || i == 13 || i == 18 || i == 23 then s[i] == '-'
         else s[i] in "0123456789abcdef"
  }

  /** The token names no file already on disk, whatever extension follows it. */
  predicate FreshStem(dir: Directory, stem: string)
  {
    forall f :: f in dir ==> !(stem <= f)
  }

  /** The lower-cased extension of an upload's file name. */
  function NormalizedExtension(filename: string): string
  {
    Lower(Extension(filename))
  }

  /** The upload is present, named, and its normalised extension is allowed. */
  predicate Accepts(upload: Option<Upload>)
  {
    && upload.Some?
    && upload.value.filename != ""
    && NormalizedExtension(upload.value.filename) in ValidImageExtensions
  }

  /** The name under which an accepted upload is stored. */
  function StoredName(filename: string, stem: string): string
  {
    stem + NormalizedExtension(filename)
  }

  /** The public URL of a stored file. */
  function UploadUrl(name: string): string
  {
    UploadPrefix + name
  }

  /**
    Saving an upload. The result is None, and nothing new is left on disk
    unless a failed cleanup left the partial file, when the upload is
    absent or unnamed, when its extension is not allowed, or when the write
    fails. Otherwise exactly the file token + extension is added and its
    public URL returned.
   */
  function Save(dir: Directory, upload: Option<Upload>, stem: string, write: WriteOutcome): (r: Saved)
    ensures r.url.Some? <==> Accepts(upload) && write.Written?
    ensures !Accepts(upload) ==> r.dir == dir
    ensures write != WriteFailed(true) && r.url.None? ==> r.dir == dir
    ensures r.url.None? && r.dir != dir ==>
              Accepts(upload) && r.dir == dir + {StoredName(upload.value.filename, stem)}
    ensures r.url.Some? ==>
              && r.url.value == UploadUrl(StoredName(upload.value.filename, stem))
              && r.dir == dir + {StoredName(upload.value.filename, stem)}
  {
    if upload.None? || upload.value.filename == "" then Saved(None, dir)
    else
      var ext := NormalizedExtension(upload.value.filename);
      if ext !in ValidImageExtensions then Saved(None, dir)
      else
        var name := stem + ext;
        match write
        case Written => Saved(Some(UploadUrl(name)), dir + {name})
        case WriteFailed(leftover) => Saved(None, if leftover then dir + {name} else dir)
  }

  /**
    The file name that deleting a photo URL would remove: the URL's last
    component, or None when the URL is absent or empty, its last component
    is empty, or the last component equals the URL stripped of slashes (a
    URL with no directory part).
   */
  function DeleteTarget(url: Option<string>): (r: Option<string>)
    ensures r.Some? ==> PlainName(r.value)
  {
    if url.None? || url.value == "" then None
    else
      var name := Basename(url.value);
      if name == "" || name == StripSlashes(url.value) then None else Some(name)
  }

  /** `u` is a directory part with some non-slash character, a slash, then the name `f`. */
  predicate UnderDirectory(u: string, f: string)
  {
    && PlainName(f)
    && |f| < |u|
    && u[|u| - |f|..] == f
    && u[|u| - |f| - 1] == '/'
    && !AllSlashes(u[..|u| - |f| - 1])
  }

  /**
    Deleting a photo by URL. It never fails: it removes at most the URL's
    target, and only when removal succeeds; a removal that raises is
    swallowed and leaves the directory as it was.
   */
  function DeleteFile(dir: Directory, url: Option<string>, removal: Removal): (r: Directory)
    ensures r <= dir
    ensures dir - r <= (if DeleteTarget(url).Some? then {DeleteTarget(url).value} else {})
    ensures DeleteTarget(url).Some? && removal.Removes? ==> DeleteTarget(url).value !in r
    ensures removal.RemoveRaises? ==> r == dir
  {
    match DeleteTarget(url)
    case None => dir
    case Some(name) => if name in dir && removal.Removes? then dir - {name} else dir
  }

  /** The file a public URL serves, when the URL names a single file under the upload prefix. */
  function ServedName(url: string): (r: Option<string>)
    ensures r.Some? ==> PlainName(r.value) && url == UploadUrl(r.value)
  {
    if |url| > |UploadPrefix| && url[..|UploadPrefix|] == UploadPrefix && PlainName(url[|UploadPrefix|..])
    then Some(url[|UploadPrefix|..])
    else None
  }

  lemma StripRightKeeps(s: string)
    requires s != [] && s[|s| - 1] != '/'
    ensures StripRight(s) == s
  {
  }

  lemma StripLeftKeepsFrom(s: string, k: int)
    requires 0 <= k < |s| && s[k] != '/'
    ensures |StripLeft(s)| >= |s| - k
  {
  }

  /** A URL with no slash, or with only slashes before its last one, strips to its last component. */
  lemma SlashOnlyDirectoryStrips(u: string, i: int)
    requires 0 <= i < |u| - 1 && AllSlashes(u[..i + 1])
    requires Excludes(u[i + 1..], '/')
    ensures StripSlashes(u) == u[i + 1..]
  {
    var l := StripLeft(u);
    var j := |u| - |l|;
    assert forall k :: 0 <= k < j ==> u[..j][k] == u[k] == '/';
    assert forall k :: 0 <= k <= i ==> u[..i + 1][k] == u[k] == '/';
    assert u[i + 1] == u[i + 1..][0] != '/';
    assert j <= i + 1;
    assert l[0] == u[j];
    assert l == u[i + 1..];
    assert l[|l| - 1] != '/';
    StripRightKeeps(l);
  }

  lemma NoSlashStrips(u: string)
    requires u != [] && Excludes(u, '/')
    ensures StripSlashes(u) == u
  {
    var l := StripLeft(u);
    assert l == u;
    StripRightKeeps(u);
  }

  /** A last component that is the whole URL means the URL has no slash, so stripping keeps it. */
  lemma WholeBasenameStrips(u: string)
    requires u != [] && |Basename(u)| == |u|
    ensures StripSlashes(u) == Basename(u)
  {
    assert Basename(u) == u;
    NoSlashStrips(u);
  }

  /** A last component preceded only by slashes is what stripping leaves. */
  lemma SlashPrefixedBasenameStrips(u: string)
    requires Basename(u) != [] && |Basename(u)| < |u|
    requires AllSlashes(u[..|u| - |Basename(u)| - 1])
    ensures StripSlashes(u) == Basename(u)
  {
    var b := Basename(u);
    var i := |u| - |b| - 1;
    assert u[i + 1..] == b;
    var dirPart := u[..i];
    var withSlash := u[..i + 1];
    forall k | 0 <= k < |withSlash|
      ensures withSlash[k] == '/'
    {
      if k < i {
        assert withSlash[k] == dirPart[k];
      }
    }
    SlashOnlyDirectoryStrips(u, i);
  }

  lemma DeleteTargetUnderDirectory(u: string, f: string)
    requires DeleteTarget(Some(u)) == Some(f)
    ensures UnderDirectory(u, f)
  {
    var b := Basename(u);
    assert u != "" && f == b && b != "" && b != StripSlashes(u);
    if |b| == |u| {
      WholeBasenameStrips(u);
    } else if AllSlashes(u[..|u| - |b| - 1]) {
      SlashPrefixedBasenameStrips(u);
    }
  }

  lemma UnderDirectoryBasename(u: string, f: string)
    requires UnderDirectory(u, f)
    ensures Basename(u) == f
  {
  }

  lemma UnderDirectoryStripsLonger(u: string, f: string)
    requires UnderDirectory(u, f)
    ensures |StripSlashes(u)| > |f|
  {
    var i := |u| - |f| - 1;
    var k :| 0 <= k < i && u[..i][k] != '/';
    assert u[k] != '/';
    StripLeftKeepsFrom(u, k);
    var l := StripLeft(u);
    assert l[|l| - 1] == u[|u| - 1] == f[|f| - 1];
    StripRightKeeps(l);
  }

  lemma UnderDirectoryDeleteTarget(u: string, f: string)
    requires UnderDirectory(u, f)
    ensures DeleteTarget(Some(u)) == Some(f)
  {
    UnderDirectoryBasename(u, f);
    UnderDirectoryStripsLonger(u, f);
  }

  /**
    Deleting by URL removes a file exactly when the URL is a directory part
    holding some non-slash character, a slash, and a plain file name.
   */
  lemma DeleteTargetCharacterized(u: string, f: string)
    ensures DeleteTarget(Some(u)) == Some(f) <==> UnderDirectory(u, f)
  {
    if DeleteTarget(Some(u)) == Some(f) {
      DeleteTargetUnderDirectory(u, f);
    }
    if UnderDirectory(u, f) {
      UnderDirectoryDeleteTarget(u, f);
    }
  }

  /** The URL of a stored file leads deletion back to that very file. */
  lemma UploadUrlTarget(n: string)
    requires PlainName(n)
    ensures DeleteTarget(Some(UploadUrl(n))) == Some(n)
    ensures ServedName(UploadUrl(n)) == Some(n)
  {
    var u := UploadUrl(n);
    assert u[|u| - |n|..] == n;
    assert u[..|u| - |n| - 1] == "/uploads";
    assert u[..|u| - |n| - 1][1] == 'u';
    UnderDirectoryDeleteTarget(u, n);
    assert u[..|UploadPrefix|] == UploadPrefix;
  }

  /** An allowed extension keeps a slash-free token a plain file name. */
  lemma StoredNameIsPlain(filename: string, stem: string)
    requires NormalizedExtension(filename) in ValidImageExtensions
    requires Excludes(stem, '/')
    ensures PlainName(StoredName(filename, stem))
  {
    var ext := NormalizedExtension(filename);
    assert Excludes(ext, '/') by {
      if ext == ".jpg" {
      } else if ext == ".jpeg" {
      } else {
        assert ext == ".png";
      }
    }
    var n := stem + ext;
    forall k | 0 <= k < |n|
      ensures n[k] != '/'
    {
      if k < |stem| {
        assert n[k] == stem[k];
      } else {
        assert n[k] == ext[k - |stem|];
      }
    }
  }

  /** A UUID token has no slash. */
  lemma UuidTextHasNoSlash(s: string)
    requires UuidText(s)
    ensures Excludes(s, '/')
  {
    forall k | 0 <= k < |s|
      ensures s[k] != '/'
    {
      if !(k == 8 || k == 13 || k == 18 || k == 23) {
        assert s[k] in "0123456789abcdef";
      }
    }
  }

  /** A fresh token yields a name that is not yet on disk. */
  lemma FreshStemGivesNewName(dir: Directory, stem: string, ext: string)
    requires FreshStem(dir, stem)
    ensures stem + ext !in dir
  {
    assert stem <= stem + ext;
  }

  /**
    A successful save with a fresh UUID token adds exactly one file that was
    not on disk before, and its URL is served from, and deleted as, that file.
   */
  lemma SaveAddsOneNewFile(dir: Directory, upload: Option<Upload>, stem: string, write: WriteOutcome)
    requires UuidText(stem) && FreshStem(dir, stem)
    requires Save(dir, upload, stem, write).url.Some?
    ensures var r := Save(dir, upload, stem, write);
            var name := StoredName(upload.value.filename, stem);
            && name !in dir
            && r.dir == dir + {name}
            && |r.dir| == |dir| + 1
            && ServedName(r.url.value) == Some(name)
            && DeleteTarget(r.url) == Some(name)
  {
    var name := StoredName(upload.value.filename, stem);
    FreshStemGivesNewName(dir, stem, NormalizedExtension(upload.value.filename));
    UuidTextHasNoSlash(stem);
    StoredNameIsPlain(upload.value.filename, stem);
    UploadUrlTarget(name);
  }

  /**
    Round trip: deleting the URL a successful save returned removes exactly
    the file that save created, so the directory is as it was before.
   */
  lemma SaveThenDeleteRestores(dir: Directory, upload: Option<Upload>, stem: string, write: WriteOutcome)
    requires UuidText(stem) && FreshStem(dir, stem)
    requires Save(dir, upload, stem, write).url.Some?
    ensures var r := Save(dir, upload, stem, write);
            DeleteFile(r.dir, r.url, Removes) == dir
  {
    SaveAddsOneNewFile(dir, upload, stem, write);
  }

  /** For a URL that serves a stored file, deleting the URL targets that same file. */
  lemma ServedNameIsDeleteTarget(u: string)
    requires ServedName(u).Some?
    ensures DeleteTarget(Some(u)) == ServedName(u)
  {
    UploadUrlTarget(ServedName(u).value);
  }
}

=== FILE: report_repository.dfy ===
/**
  The report repository: a state machine over two resources, the report
  table (a map from id to row) and the upload directory. Every database
  commit is taken to succeed. The random token, the id the store assigns,
  and the outcomes of writing and removing files come from an `Oracle`.
 */
module ReportRepository {
  import opened Options
  import opened PathText
  import opened PhotoStore
  import opened Pagination

  /**
    A column value: None is SQL NULL, the value of a column nobody set. The
    concrete text of a value belongs to the external schema.
   */
  type Value = Option<string>

  /** A report row: its id, its descriptive columns (damage type, location, ...) and its photo URL. */
  datatype Report = Report(id: int, fields: map<string, Value>, photoUrl: Option<string>)

  type Table = map<int, Report>

  /**
    The repository's resources: the descriptive columns the report table
    maps (fixed by the table's class), its rows, and the upload directory.
   */
  datatype State = State(columns: set<string>, table: Table, dir: Directory)

  /**
    The environment's choices for one request: the id the store assigns to
    a new row, the random token for a new file name, how writing the upload
    ends, and whether removing an existing file succeeds.
   */
  datatype Oracle = Oracle(newId: int, stem: string, write: WriteOutcome, removal: Removal)

  /** The state after an operation, and what the operation returned. */
  datatype Step<T> = Step(state: State, value: T)

  /** Column data names only descriptive columns: the id and photo URL are set by the repository. */
  predicate Descriptive(fields: map<string, Value>)
  {
    "id" !in fields && "photo_url" !in fields
  }

  /** The photo URL is null, or serves a file that is on disk. */
  predicate PhotoOnDisk(url: Option<string>, dir: Directory)
  {
    url.None? || (ServedName(url.value).Some? && ServedName(url.value).value in dir)
  }

  /**
    The repository's invariant: rows are stored under their own id and
    carry every column of the table, every
    photo URL is null or names an existing file, and no two rows share a
    photo file.
   */
  predicate Consistent(s: State)
  {
    && (forall id :: id in s.table ==> s.table[id].id == id)
    && (forall id :: id in s.table ==> s.table[id].fields.Keys == s.columns)
    && (forall id :: id in s.table ==> PhotoOnDisk(s.table[id].photoUrl, s.dir))
    && (forall i, j :: i in s.table && j in s.table && i != j && s.table[i].photoUrl.Some? ==>
          s.table[i].photoUrl != s.table[j].photoUrl)
  }

  /**
    Creating a report: the photo, if one is given, is saved first; a failed
    save leaves the new row without a photo but never prevents creation.
    Exactly one row is added, under the id the store assigns; it has every
    column of the table, NULL where the data supplies none.
   */
  function Create(s: State, data: map<string, Value>, photo: Option<Upload>, o: Oracle): (r: Step<Report>)
    requires o.newId !in s.table
    requires Descriptive(data) && data.Keys <= s.columns
    ensures r.state.columns == s.columns
    ensures r.state.table.Keys == s.table.Keys + {o.newId}
    ensures forall id :: id in s.table ==> r.state.table[id] == s.table[id]
    ensures r.state.table[o.newId] == r.value
    ensures r.value.id == o.newId && r.value.fields.Keys == s.columns
    ensures forall c :: c in data ==> r.value.fields[c] == data[c]
    ensures forall c :: c in s.columns && c !in data ==> r.value.fields[c] == None
    ensures photo.None? ==> r.value.photoUrl.None? && r.state.dir == s.dir
    ensures r.value.photoUrl.Some? <==> Accepts(photo) && o.write.Written?
    ensures r.value.photoUrl == Save(s.dir, photo, o.stem, o.write).url
    ensures r.state.dir == Save(s.dir, photo, o.stem, o.write).dir
  {
    var saved := if photo.Some? then Save(s.dir, photo, o.stem, o.write) else Saved(None, s.dir);
    var fields := map c | c in s.columns :: if c in data then data[c] else None;
    var row := Report(o.newId, fields, saved.url);
    Step(State(s.columns, s.table[o.newId := row], saved.dir), row)
  }

  /** Reading one report by id; nothing changes. */
  function GetById(s: State, id: int): (r: Option<Report>)
    ensures r.Some? <==> id in s.table
    ensures r.Some? ==> r.value == s.table[id]
  {
    if id in s.table then Some(s.table[id]) else None
  }

  /**
    One page of reports: greatest id first, `skip` rows dropped, at
    most `limit` kept. By default the first ten.
   */
  function GetPage(s: State, skip: nat := 0, limit: nat := 10): (r: seq<Report>)
    ensures |r| <= limit
    ensures |r| == |PageIds(s.table.Keys, skip, limit)|
    ensures forall i :: 0 <= i < |r| ==>
              PageIds(s.table.Keys, skip, limit)[i] in s.table &&
              r[i] == s.table[PageIds(s.table.Keys, skip, limit)[i]]
  {
    var ids := PageIds(s.table.Keys, skip, limit);
    seq(|ids|, i requires 0 <= i < |ids| => s.table[ids[i]])
  }

  /** The number of report rows. */
  function Count(s: State): (n: nat)
    ensures n == 0 <==> s.table == map[]
  {
    |s.table|
  }

  /**
    Applying a partial update: every column of the table that the patch
    supplies takes the patch's value; the row's other columns keep theirs,
    and patch keys that are not columns are ignored.
   */
  function ApplyPatch(fields: map<string, Value>, patch: map<string, Value>, columns: set<string>)
    : (r: map<string, Value>)
    ensures r.Keys == fields.Keys + (patch.Keys * columns)
    ensures forall k :: k in patch && k in columns ==> r[k] == patch[k]
    ensures forall k :: k in fields && !(k in patch && k in columns) ==> r[k] == fields[k]
  {
    map k | k in fields.Keys + (patch.Keys * columns) ::
      if k in patch && k in columns then patch[k] else fields[k]
  }

  /**
    The column-by-column update loop: for each supplied key, set the
    attribute only if the table has that column. It computes exactly
    `ApplyPatch`.
   */
  method SetPresentColumns(fields: map<string, Value>, patch: map<string, Value>, columns: set<string>)
    returns (r: map<string, Value>)
    ensures r == ApplyPatch(fields, patch, columns)
  {
    r := fields;
    var todo := patch.Keys;
    while todo != {}
      invariant todo <= patch.Keys
      invariant r.Keys == fields.Keys + ((patch.Keys - todo) * columns)
      invariant forall k :: k in r ==>
                  r[k] == if k in patch && k in columns && k !in todo then patch[k] else fields[k]
      decreases todo
    {
      var key :| key in todo;
      if key in columns {
        r := r[key := patch[key]];
      }
      todo := todo - {key};
    }
  }

  /**
    Updating a report. A missing id returns None and changes nothing.
    Otherwise the patch is applied; if a new photo is given it is saved
    first, and only when that succeeds is removal of the old photo's file
    attempted and the URL replaced; a removal that raises leaves the old
    file on disk as an orphan. A failed save keeps the old URL and the old
    file.
   */
  function Update(s: State, id: int, patch: map<string, Value>, photo: Option<Upload>, o: Oracle)
    : (r: Step<Option<Report>>)
    requires Descriptive(patch)
    ensures r.state.columns == s.columns
    ensures id !in s.table ==> r == Step(s, None)
    ensures id in s.table ==> r.value.Some? && r.state.table == s.table[id := r.value.value]
    ensures id in s.table ==>
              && r.value.value.id == s.table[id].id
              && r.value.value.fields == ApplyPatch(s.table[id].fields, patch, s.columns)
    ensures id in s.table && !(Accepts(photo) && o.write.Written?) ==>
              && r.value.value.photoUrl == s.table[id].photoUrl
              && r.state.dir == Save(s.dir, photo, o.stem, o.write).dir
    ensures id in s.table && Accepts(photo) && o.write.Written? ==>
              var saved := Save(s.dir, photo, o.stem, o.write);
              && r.value.value.photoUrl == saved.url
              && r.state.dir == DeleteFile(saved.dir, s.table[id].photoUrl, o.removal)
  {
    if id !in s.table then Step(s, None)
    else
      var row := s.table[id];
      var patched := row.(fields := ApplyPatch(row.fields, patch, s.columns));
      if photo.None? then
        Step(s.(table := s.table[id := patched]), Some(patched))
      else
        var saved := Save(s.dir, photo, o.stem, o.write);
        if saved.url.Some? then
          var dir := DeleteFile(saved.dir, row.photoUrl, o.removal);
          var updated := patched.(photoUrl := saved.url);
          Step(State(s.columns, s.table[id := updated], dir), Some(updated))
        else
          Step(State(s.columns, s.table[id := patched], saved.dir), Some(patched))
  }

  /**
    Deleting a report. A missing id returns None and changes nothing.
    Otherwise the row is removed and committed first, and then removal of
    its photo's file, if any, is attempted; a removal that raises leaves the
    file on disk as an orphan. The former row is returned.
   */
  function Delete(s: State, id: int, o: Oracle): (r: Step<Option<Report>>)
    ensures r.state.columns == s.columns
    ensures id !in s.table ==> r == Step(s, None)
    ensures id in s.table ==>
              && r.value == Some(s.table[id])
              && r.state.table.Keys == s.table.Keys - {id}
              && (forall k :: k in r.state.table ==> r.state.table[k] == s.table[k])
              && r.state.dir == DeleteFile(s.dir, s.table[id].photoUrl, o.removal)
  {
    if id !in s.table then Step(s, None)
    else
      var row := s.table[id];
      var committed := s.(table := s.table - {id});
      Step(committed.(dir := DeleteFile(committed.dir, row.photoUrl, o.removal)), Some(row))
  }

  /**
    The durable states a delete of an existing row passes through: the
    committed table with the directory untouched, then the file removal.
   */
  function DeleteStages(s: State, id: int, o: Oracle): (r: seq<State>)
    requires id in s.table
    ensures |r| == 2
    ensures r[0].table == Delete(s, id, o).state.table && r[0].dir == s.dir && r[0].columns == s.columns
    ensures r[1] == Delete(s, id, o).state
  {
    var committed := s.(table := s.table - {id});
    [committed, committed.(dir := DeleteFile(s.dir, s.table[id].photoUrl, o.removal))]
  }

  /**
    The durable states an update of an existing row with a new photo passes
    through: the new file written, then the old file's removal attempted, both while the
    table still holds the old row, and finally the commit.
   */
  function UpdateStages(s: State, id: int, patch: map<string, Value>, photo: Option<Upload>, o: Oracle)
    : (r: seq<State>)
    requires Descriptive(patch) && id in s.table && photo.Some?
    ensures |r| == 3
    ensures r[0] == s.(dir := Save(s.dir, photo, o.stem, o.write).dir)
    ensures r[1] == s.(dir := Update(s, id, patch, photo, o).state.dir)
    ensures r[2] == Update(s, id, patch, photo, o).state
  {
    var saved := Save(s.dir, photo, o.stem, o.write);
    var removed := if saved.url.Some? then DeleteFile(saved.dir, s.table[id].photoUrl, o.removal) else saved.dir;
    [s.(dir := saved.dir), s.(dir := removed), Update(s, id, patch, photo, o).state]
  }
}

=== FILE: repository_properties.dfy ===
/**
  Properties of the report repository that relate its operations to each
  other and to the invariant: photos resolve to files on disk, files are
  released when their rows are deleted or their photos replaced, and the
  order of the steps keeps a crash from leaving a dangling reference on
  delete.
 */
module RepositoryProperties {
  import opened Options
  import opened PathText
  import opened PhotoStore
  import opened Pagination
  import opened ReportRepository

  /** The file a row's photo URL names on disk, for a URL known to serve one. */
  function PhotoFile(url: string): string
    requires ServedName(url).Some?
  {
    ServedName(url).value
  }

  /**
    Creating a report with a fresh UUID token keeps the invariant: the new
    row's photo, if any, is a file that no other row references.
   */
  lemma CreatePreservesConsistency(s: State, data: map<string, Value>, photo: Option<Upload>, o: Oracle)
    requires Consistent(s) && o.newId !in s.table && Descriptive(data) && data.Keys <= s.columns
    requires UuidText(o.stem) && FreshStem(s.dir, o.stem)
    ensures Consistent(Create(s, data, photo, o).state)
  {
    var r := Create(s, data, photo, o);
    var t := r.state.table;
    assert s.dir <= r.state.dir;
    if r.value.photoUrl.Some? {
      SaveAddsOneNewFile(s.dir, photo, o.stem, o.write);
    }
    forall id | id in t
      ensures PhotoOnDisk(t[id].photoUrl, r.state.dir)
    {
      if id != o.newId {
        assert t[id] == s.table[id];
        assert PhotoOnDisk(s.table[id].photoUrl, s.dir);
      }
    }
    forall i, j | i in t && j in t && i != j && t[i].photoUrl.Some?
      ensures t[i].photoUrl != t[j].photoUrl
    {
      if i != o.newId && j != o.newId {
        assert t[i] == s.table[i] && t[j] == s.table[j];
      } else {
        var k := if i == o.newId then j else i;
        assert t[k] == s.table[k];
        if s.table[k].photoUrl.Some? && r.value.photoUrl.Some? {
          assert PhotoFile(s.table[k].photoUrl.value) in s.dir;
        }
      }
    }
  }

  /**
    A created report with an accepted photo references a file that is new on
    disk; with no photo, a rejected one, or a failed write whose partial file
    was cleaned up, it has no photo and the directory is unchanged. The row
    is readable under its new id and the count grows by one either way.
   */
  lemma CreateOutcome(s: State, data: map<string, Value>, photo: Option<Upload>, o: Oracle)
    requires o.newId !in s.table && Descriptive(data) && data.Keys <= s.columns
    requires UuidText(o.stem) && FreshStem(s.dir, o.stem)
    ensures var r := Create(s, data, photo, o);
            && GetById(r.state, o.newId) == Some(r.value)
            && Count(r.state) == Count(s) + 1
            && (Accepts(photo) && o.write.Written? ==>
                  var name := StoredName(photo.value.filename, o.stem);
                  && r.value.photoUrl == Some(UploadUrl(name))
                  && ServedName(r.value.photoUrl.value) == Some(name)
                  && name !in s.dir
                  && r.state.dir == s.dir + {name})
            && (!(Accepts(photo) && o.write.Written?) && o.write != WriteFailed(true) ==>
                  r.value.photoUrl.None? && r.state.dir == s.dir)
  {
    var r := Create(s, data, photo, o);
    assert r.state.table.Keys == s.table.Keys + {o.newId};
    assert |r.state.table.Keys| == |s.table.Keys| + 1;
    if Accepts(photo) && o.write.Written? {
      SaveAddsOneNewFile(s.dir, photo, o.stem, o.write);
    }
  }

  /**
    Replacing a photo: when the new photo is saved and the old file's
    removal succeeds, the row references the new file, which is on disk and
    was not before, the old file is gone, and no other file changes.
   */
  lemma UpdateReplacesPhoto(s: State, id: int, patch: map<string, Value>, photo: Option<Upload>, o: Oracle)
    requires Consistent(s) && Descriptive(patch) && id in s.table
    requires UuidText(o.stem) && FreshStem(s.dir, o.stem)
    requires Accepts(photo) && o.write.Written? && o.removal.Removes?
    ensures var r := Update(s, id, patch, photo, o);
            var name := StoredName(photo.value.filename, o.stem);
            var prev := s.table[id].photoUrl;
            && r.value.value.photoUrl == Some(UploadUrl(name))
            && name !in s.dir && name in r.state.dir
            && (prev.Some? ==> PhotoFile(prev.value) !in r.state.dir)
            && r.state.dir == (if prev.Some? then s.dir - {PhotoFile(prev.value)} else s.dir) + {name}
  {
    var name := StoredName(photo.value.filename, o.stem);
    var prev := s.table[id].photoUrl;
    SaveAddsOneNewFile(s.dir, photo, o.stem, o.write);
    if prev.Some? {
      ServedNameIsDeleteTarget(prev.value);
      assert PhotoFile(prev.value) in s.dir;
      assert PhotoFile(prev.value) != name;
    }
  }

  /**
    A failed new-photo save never destroys the old photo: the row keeps its
    URL, whose file is still on disk, and unless the failed write's partial
    file was left behind the directory is unchanged.
   */
  lemma UpdateKeepsPhotoOnFailedSave(s: State, id: int, patch: map<string, Value>, photo: Option<Upload>, o: Oracle)
    requires Consistent(s) && Descriptive(patch) && id in s.table
    requires !(Accepts(photo) && o.write.Written?)
    ensures var r := Update(s, id, patch, photo, o);
            && r.value.value.photoUrl == s.table[id].photoUrl
            && PhotoOnDisk(r.value.value.photoUrl, r.state.dir)
            && (o.write != WriteFailed(true) ==> r.state.dir == s.dir)
  {
    assert PhotoOnDisk(s.table[id].photoUrl, s.dir);
  }

  /**
    Replacing one row keeps the invariant when the new row keeps the id and
    the columns, and every photo is on disk and unshared afterwards.
   */
  lemma ReplacingRowKeepsConsistency(s: State, id: int, row: Report, dir: Directory)
    requires Consistent(s) && id in s.table
    requires row.id == id && row.fields.Keys == s.columns
    requires PhotoOnDisk(row.photoUrl, dir)
    requires forall k :: k in s.table && k != id ==> PhotoOnDisk(s.table[k].photoUrl, dir)
    requires row.photoUrl.Some? ==> forall k :: k in s.table && k != id ==> s.table[k].photoUrl != row.photoUrl
    ensures Consistent(s.(table := s.table[id := row], dir := dir))
  {
  }

  /** The invariant after an update whose new photo was saved. */
  lemma UpdateReplacingKeepsConsistency(s: State, id: int, patch: map<string, Value>, photo: Option<Upload>, o: Oracle)
    requires Consistent(s) && Descriptive(patch) && id in s.table
    requires UuidText(o.stem) && FreshStem(s.dir, o.stem)
    requires Accepts(photo) && o.write.Written?
    ensures Consistent(Update(s, id, patch, photo, o).state)
  {
    var r := Update(s, id, patch, photo, o);
    var row := r.value.value;
    var prev := s.table[id].photoUrl;
    var name := StoredName(photo.value.filename, o.stem);
    SaveAddsOneNewFile(s.dir, photo, o.stem, o.write);
    if prev.Some? {
      ServedNameIsDeleteTarget(prev.value);
    }
    var gone := if prev.Some? then {PhotoFile(prev.value)} else {};
    assert r.state.dir >= (s.dir + {name}) - gone;
    assert name !in gone;
    forall k | k in s.table && k != id
      ensures PhotoOnDisk(s.table[k].photoUrl, r.state.dir)
    {
      if s.table[k].photoUrl.Some? {
        assert PhotoFile(s.table[k].photoUrl.value) in s.dir;
        assert s.table[k].photoUrl != prev;
      }
    }
    forall k | k in s.table && k != id && s.table[k].photoUrl.Some?
      ensures s.table[k].photoUrl != row.photoUrl
    {
      assert PhotoFile(s.table[k].photoUrl.value) in s.dir;
    }
    UpdateSetsSuppliedColumns(s, id, patch, photo, o);
    ReplacingRowKeepsConsistency(s, id, row, r.state.dir);
    assert r.state == s.(table := s.table[id := row], dir := r.state.dir);
  }

  /** The invariant after an update that keeps the old photo. */
  lemma UpdateKeepingKeepsConsistency(s: State, id: int, patch: map<string, Value>, photo: Option<Upload>, o: Oracle)
    requires Consistent(s) && Descriptive(patch) && id in s.table
    requires !(Accepts(photo) && o.write.Written?)
    ensures Consistent(Update(s, id, patch, photo, o).state)
  {
    var r := Update(s, id, patch, photo, o);
    assert s.dir <= r.state.dir;
    forall k | k in r.state.table
      ensures PhotoOnDisk(r.state.table[k].photoUrl, r.state.dir)
    {
      assert PhotoOnDisk(s.table[k].photoUrl, s.dir);
    }
  }

  /** Updating with a fresh UUID token keeps the invariant. */
  lemma UpdatePreservesConsistency(s: State, id: int, patch: map<string, Value>, photo: Option<Upload>, o: Oracle)
    requires Consistent(s) && Descriptive(patch)
    requires UuidText(o.stem) && FreshStem(s.dir, o.stem)
    ensures Consistent(Update(s, id, patch, photo, o).state)
  {
    if id in s.table {
      if Accepts(photo) && o.write.Written? {
        UpdateReplacingKeepsConsistency(s, id, patch, photo, o);
      } else {
        UpdateKeepingKeepsConsistency(s, id, patch, photo, o);
      }
    }
  }

  /**
    An update sets every column the patch supplies, whether or not create
    supplied it, keeps every other column, and leaves the row with exactly
    the table's columns.
   */
  lemma UpdateSetsSuppliedColumns(s: State, id: int, patch: map<string, Value>, photo: Option<Upload>, o: Oracle)
    requires Consistent(s) && Descriptive(patch) && id in s.table
    ensures var row := Update(s, id, patch, photo, o).value.value;
            && row.fields.Keys == s.columns
            && (forall c :: c in patch && c in s.columns ==> row.fields[c] == patch[c])
            && (forall c :: c in s.columns && c !in patch ==> row.fields[c] == s.table[id].fields[c])
  {
    assert s.table[id].fields.Keys == s.columns;
  }

  /**
    New before old: once the new file is written, and before anything else,
    the durable state still satisfies the invariant.
   */
  lemma UpdateSaveFirstIsSafe(s: State, id: int, patch: map<string, Value>, photo: Option<Upload>, o: Oracle)
    requires Consistent(s) && Descriptive(patch) && id in s.table && photo.Some?
    ensures Consistent(UpdateStages(s, id, patch, photo, o)[0])
  {
    var st := UpdateStages(s, id, patch, photo, o)[0];
    assert s.dir <= st.dir;
    forall k | k in st.table
      ensures PhotoOnDisk(st.table[k].photoUrl, st.dir)
    {
      assert PhotoOnDisk(s.table[k].photoUrl, s.dir);
    }
  }

  /**
    The old file is removed before the commit, so between the two the
    durable table still references a file that is gone: an update that
    replaces an existing photo opens this window whenever the old file's
    removal succeeds.
   */
  lemma UpdateCommitWindow(s: State, id: int, patch: map<string, Value>, photo: Option<Upload>, o: Oracle)
    requires Consistent(s) && Descriptive(patch) && id in s.table
    requires s.table[id].photoUrl.Some?
    requires UuidText(o.stem) && FreshStem(s.dir, o.stem)
    requires Accepts(photo) && o.write.Written? && o.removal.Removes?
    ensures !Consistent(UpdateStages(s, id, patch, photo, o)[1])
  {
    var st := UpdateStages(s, id, patch, photo, o)[1];
    UpdateReplacesPhoto(s, id, patch, photo, o);
    assert !PhotoOnDisk(st.table[id].photoUrl, st.dir);
  }

  /**
    When removing the old file raises, an update with a new photo removes
    no file: every file on disk before stays on disk through every stage,
    and the old file is left as an orphan once the URL is replaced.
   */
  lemma UpdateKeepsOldFileWhenRemovalRaises(s: State, id: int, patch: map<string, Value>, photo: Option<Upload>, o: Oracle)
    requires Descriptive(patch) && id in s.table && photo.Some? && o.removal.RemoveRaises?
    ensures s.dir <= UpdateStages(s, id, patch, photo, o)[1].dir
    ensures s.dir <= Update(s, id, patch, photo, o).state.dir
  {
  }

  /**
    Deleting an existing report whose file removal succeeds removes its
    row, makes it unreadable and decrements the count, and removes exactly
    its photo file, if any.
   */
  lemma DeleteRemovesRowAndFile(s: State, id: int, o: Oracle)
    requires Consistent(s) && id in s.table && o.removal.Removes?
    ensures var r := Delete(s, id, o);
            var prev := s.table[id].photoUrl;
            && GetById(r.state, id).None?
            && Count(r.state) == Count(s) - 1
            && r.state.dir == (if prev.Some? then s.dir - {PhotoFile(prev.value)} else s.dir)
  {
    var r := Delete(s, id, o);
    DroppingKeyShrinksTable(s.table, r.state.table, id);
    var prev := s.table[id].photoUrl;
    if prev.Some? {
      assert PhotoOnDisk(prev, s.dir);
      DeletingServedFile(s.dir, prev.value);
    }
  }

  /** A table missing exactly one key of another has one row fewer. */
  lemma DroppingKeyShrinksTable(t: Table, t': Table, id: int)
    requires id in t && t'.Keys == t.Keys - {id}
    ensures |t'| == |t| - 1
  {
    assert |t'.Keys| == |t.Keys - {id}| == |t.Keys| - 1;
  }

  /** A successful removal by a URL that serves a file on disk removes exactly that file. */
  lemma DeletingServedFile(dir: Directory, url: string)
    requires ServedName(url).Some? && ServedName(url).value in dir
    ensures DeleteFile(dir, Some(url), Removes) == dir - {ServedName(url).value}
  {
    ServedNameIsDeleteTarget(url);
  }

  /**
    A delete whose file removal raises still removes the row; the photo
    file stays on disk as an orphan and the directory is unchanged.
   */
  lemma DeleteKeepsFileWhenRemovalRaises(s: State, id: int, o: Oracle)
    requires id in s.table && o.removal.RemoveRaises?
    ensures var r := Delete(s, id, o);
            && r.value == Some(s.table[id])
            && GetById(r.state, id).None?
            && r.state.dir == s.dir
  {
  }

  /** Deleting twice is the same as deleting once: the second finds nothing and changes nothing. */
  lemma DeleteIsIdempotent(s: State, id: int, o: Oracle, o': Oracle)
    ensures var first := Delete(s, id, o);
            Delete(first.state, id, o') == Step(first.state, None)
  {
  }

  /** Dropping a row keeps the invariant. */
  lemma DroppingRowKeepsConsistency(s: State, id: int)
    requires Consistent(s)
    ensures Consistent(s.(table := s.table - {id}))
  {
  }

  /** Removing a file that no row references keeps the invariant. */
  lemma ReleasingUnreferencedFileKeepsConsistency(s: State, f: string, dir: Directory)
    requires Consistent(s)
    requires s.dir - {f} <= dir
    requires forall k :: k in s.table && s.table[k].photoUrl.Some? ==>
               ServedName(s.table[k].photoUrl.value) != Some(f)
    ensures Consistent(s.(dir := dir))
  {
    forall k | k in s.table
      ensures PhotoOnDisk(s.table[k].photoUrl, dir)
    {
      assert PhotoOnDisk(s.table[k].photoUrl, s.dir);
    }
  }

  /**
    Commit before file removal: every durable state a delete passes
    through, and so its result, satisfies the invariant.
   */
  lemma DeleteStagesConsistent(s: State, id: int, o: Oracle)
    requires Consistent(s) && id in s.table
    ensures forall k :: 0 <= k < 2 ==> Consistent(DeleteStages(s, id, o)[k])
    ensures Consistent(Delete(s, id, o).state)
  {
    var stages := DeleteStages(s, id, o);
    var committed := s.(table := s.table - {id});
    DroppingRowKeepsConsistency(s, id);
    assert stages[0] == committed;
    var url := s.table[id].photoUrl;
    if url.Some? {
      var f := PhotoFile(url.value);
      ServedNameIsDeleteTarget(url.value);
      forall k | k in committed.table && committed.table[k].photoUrl.Some?
        ensures ServedName(committed.table[k].photoUrl.value) != Some(f)
      {
        assert committed.table[k].photoUrl != url;
        assert committed.table[k].photoUrl.value == UploadUrl(PhotoFile(committed.table[k].photoUrl.value));
      }
      ReleasingUnreferencedFileKeepsConsistency(committed, f, stages[1].dir);
    }
    assert stages[1] == committed.(dir := stages[1].dir);
  }

  /**
    Removing the file before committing would be unsafe: for a report with
    a photo, the state in between references a file that is gone.
   */
  lemma FileFirstWouldDangle(s: State, id: int)
    requires Consistent(s) && id in s.table && s.table[id].photoUrl.Some?
    ensures !Consistent(s.(dir := DeleteFile(s.dir, s.table[id].photoUrl, Removes)))
  {
    ServedNameIsDeleteTarget(s.table[id].photoUrl.value);
  }

  /** A page lists rows greatest id first, each under its own id. */
  lemma PageGreatestIdFirst(s: State, skip: nat, limit: nat)
    requires Consistent(s)
    ensures var page := GetPage(s, skip, limit);
            forall i, j :: 0 <= i < j < |page| ==> page[i].id > page[j].id
  {
  }

  /** A page lists, in order, the rows of the page's ids. */
  lemma PageRowAt(s: State, skip: nat, limit: nat, id: int)
    requires Consistent(s)
    ensures id in PageIds(s.table.Keys, skip, limit) <==> id in s.table && s.table[id] in GetPage(s, skip, limit)
  {
    var ids := PageIds(s.table.Keys, skip, limit);
    var page := GetPage(s, skip, limit);
    if id in ids {
      var i :| 0 <= i < |ids| && ids[i] == id;
      assert page[i] == s.table[id];
    }
    if id in s.table && s.table[id] in page {
      var i :| 0 <= i < |page| && page[i] == s.table[id];
      assert s.table[ids[i]].id == ids[i];
    }
  }

  /**
    A row is on a page exactly when the number of rows with a greater id is at least
    `skip` and below `skip + limit`.
   */
  lemma PageHoldsRanks(s: State, skip: nat, limit: nat, id: int)
    requires Consistent(s)
    ensures id in s.table && skip <= Rank(s.table.Keys, id) < skip + limit <==>
              id in s.table && s.table[id] in GetPage(s, skip, limit)
  {
    PageMembership(s.table.Keys, skip, limit, id);
    PageRowAt(s, skip, limit, id);
  }

  /**
    The default page holds the ten greatest ids: as many rows as there are,
    up to ten, and a row is on it exactly when fewer than ten rows have a
    greater id.
   */
  lemma DefaultPageHoldsTenGreatestIds(s: State)
    requires Consistent(s)
    ensures |GetPage(s)| == Min(Count(s), 10)
    ensures forall id :: id in s.table ==> (s.table[id] in GetPage(s) <==> Rank(s.table.Keys, id) < 10)
  {
    forall id | id in s.table
      ensures s.table[id] in GetPage(s) <==> Rank(s.table.Keys, id) < 10
    {
      PageHoldsRanks(s, 0, 10, id);
    }
  }

  /** Consecutive pages tile: a page followed by the next is one longer page. */
  lemma PagesTile(s: State, skip: nat, m: nat, n: nat)
    ensures GetPage(s, skip, m) + GetPage(s, skip + m, n) == GetPage(s, skip, m + n)
  {
    var ids := SortedDesc(s.table.Keys);
    WindowsTile(ids, skip, m, n);
    var a := GetPage(s, skip, m);
    var b := GetPage(s, skip + m, n);
    var c := GetPage(s, skip, m + n);
    assert |a + b| == |c|;
    forall i | 0 <= i < |c|
      ensures (a + b)[i] == c[i]
    {
      if i < |a| {
        assert (a + b)[i] == a[i];
      } else {
        assert (a + b)[i] == b[i - |a|];
      }
    }
  }

  /** The count equals the number of rows a page as long as the count lists, and that page has every row. */
  lemma CountMatchesFullPage(s: State)
    ensures |GetPage(s, 0, Count(s))| == Count(s)
    ensures forall id :: id in s.table ==> s.table[id] in GetPage(s, 0, Count(s))
  {
    var ids := PageIds(s.table.Keys, 0, Count(s));
    FullPage(s.table.Keys, Count(s));
    var page := GetPage(s, 0, Count(s));
    forall id | id in s.table
      ensures s.table[id] in page
    {
      assert id in ids;
      var i :| 0 <= i < |ids| && ids[i] == id;
      assert page[i] == s.table[id];
    }
  }
}

=== FILE: scenarios.dfy ===
/**
  Concrete runs of the model: the extension and delete-guard edge cases,
  and the two end-to-end scenarios of creating and deleting a report.
 */
module Scenarios {
  import opened Options
  import opened PathText
  import opened PhotoStore
  import opened ReportRepository
  import opened RepositoryProperties

  /** A random token as the UUID generator would print it. */
  const Token: string := "123e4567-e89b-42d3-a456-426614174000"

  /** An example set of descriptive columns for the report table. */
  const Columns: set<string> := {"damage_type", "location"}

  /** Lower-casing leaves a string without upper-case ASCII letters as it is. */
  lemma LowerFixes(t: string)
    requires forall i :: 0 <= i < |t| ==> !('A' <= t[i] <= 'Z')
    ensures Lower(t) == t
  {
  }

  /** ".PNG" lower-cases to ".png". */
  lemma PngFolds()
    ensures Lower(".PNG") == ".png"
  {
    var l := Lower(".PNG");
    assert l[0] == '.' && l[1] == 'p' && l[2] == 'n' && l[3] == 'g';
  }

  /** The case of an extension is folded: "X.PNG" is stored as a ".png". */
  lemma UpperCaseExtensionFolds()
    ensures NormalizedExtension("X.PNG") == ".png"
    ensures Accepts(Some(Upload("X.PNG")))
  {
    SplitExtFindsExtension("X.PNG", 0, 1);
    PngFolds();
  }

  /** "crack.gif" ends in ".gif". */
  lemma GifExtension()
    ensures Extension("crack.gif") == ".gif"
  {
    SplitExtFindsExtension("crack.gif", 4, 5);
  }

  /** A GIF is not an allowed photo. */
  lemma GifIsRefused()
    ensures NormalizedExtension("crack.gif") == ".gif"
    ensures !Accepts(Some(Upload("crack.gif")))
  {
    GifExtension();
    LowerFixes(".gif");
    assert ".gif" !in ValidImageExtensions;
  }

  /** Only the last dot counts. */
  lemma LastDotCounts()
    ensures Extension("archive.tar.jpeg") == ".jpeg"
  {
    SplitExtFindsExtension("archive.tar.jpeg", 10, 11);
  }

  /** A name that is only dots before its last dot has no extension, so ".png" is refused. */
  lemma HiddenFileHasNoExtension()
    ensures Extension(".png") == ""
    ensures Extension("..png") == ""
    ensures !Accepts(Some(Upload(".png")))
  {
    LastIndexOfAbsent(".png", '/');
    SplitExtLeadingDots(".png", 0);
    LastIndexOfAbsent("..png", '/');
    SplitExtLeadingDots("..png", 1);
  }

  /** A dot in a directory name is not an extension. */
  lemma DirectoryDotIsNotExtension()
    ensures Extension("album.d/photo") == ""
  {
    LastIndexOfAt("album.d/photo", '/', 7);
    LastIndexOfAt("album.d/photo", '.', 5);
  }

  /** A stored photo's URL deletes its file. */
  lemma UploadUrlIsDeleted()
    ensures DeleteTarget(Some("/uploads/x.png")) == Some("x.png")
  {
    assert "/uploads/x.png" == UploadUrl("x.png");
    UploadUrlTarget("x.png");
  }

  /** A URL without a directory part is refused by the guard. */
  lemma BareNameIsNotDeleted()
    ensures DeleteTarget(Some("abc.png")) == None
  {
    LastIndexOfAbsent("abc.png", '/');
    NoSlashStrips("abc.png");
  }

  /** A URL whose directory part is only slashes is refused by the guard too. */
  lemma RootNameIsNotDeleted()
    ensures DeleteTarget(Some("/abc.png")) == None
  {
    LastIndexOfAt("/abc.png", '/', 0);
    SlashOnlyDirectoryStrips("/abc.png", 0);
  }

  /** A URL without a file name is refused by the guard. */
  lemma DirectoryUrlIsNotDeleted()
    ensures DeleteTarget(Some("/uploads/")) == None
  {
    LastIndexOfAt("/uploads/", '/', 8);
  }

  /** The token has the UUID shape. */
  lemma TokenIsUuid()
    ensures UuidText(Token)
  {
  }

  /** "road.PNG" is accepted and stored as a ".png". */
  lemma RoadPhotoAccepted()
    ensures NormalizedExtension("road.PNG") == ".png"
    ensures Accepts(Some(Upload("road.PNG")))
  {
    SplitExtFindsExtension("road.PNG", 3, 4);
    PngFolds();
  }

  /** Creating a pothole report with a PNG photo stores the photo under the token and keeps the invariant. */
  lemma PotholeCreated()
    ensures var o := Oracle(1, Token, Written, Removes);
            var c := Create(State(Columns, map[], {}), map["damage_type" := Some("pothole")], Some(Upload("road.PNG")), o);
            && c.value.id == 1
            && c.value.photoUrl == Some(UploadUrl(Token + ".png"))
            && c.state.dir == {Token + ".png"}
            && Consistent(c.state)
  {
    var empty := State(Columns, map[], {});
    var o := Oracle(1, Token, Written, Removes);
    var data := map["damage_type" := Some("pothole")];
    var photo := Some(Upload("road.PNG"));
    RoadPhotoAccepted();
    TokenIsUuid();
    assert StoredName("road.PNG", Token) == Token + ".png";
    CreateOutcome(empty, data, photo, o);
    CreatePreservesConsistency(empty, data, photo, o);
  }

  /**
    A pothole report created with a PNG photo gets a photo under
    "/uploads/" ending in ".png" whose file is on disk; deleted, its file is
    gone and it can no longer be read.
   */
  lemma PotholeScenario()
    ensures var o := Oracle(1, Token, Written, Removes);
            var created := Create(State(Columns, map[], {}), map["damage_type" := Some("pothole")], Some(Upload("road.PNG")), o);
            var deleted := Delete(created.state, 1, o);
            && created.value.id == 1
            && created.value.photoUrl == Some("/uploads/" + Token + ".png")
            && created.state.dir == {Token + ".png"}
            && deleted.value == Some(created.value)
            && deleted.state.dir == {}
            && GetById(deleted.state, 1) == None
  {
    var o := Oracle(1, Token, Written, Removes);
    var created := Create(State(Columns, map[], {}), map["damage_type" := Some("pothole")], Some(Upload("road.PNG")), o);
    PotholeCreated();
    var name := Token + ".png";
    assert UploadUrl(name) == "/uploads/" + Token + ".png";
    TokenIsUuid();
    UuidTextHasNoSlash(Token);
    assert PlainName(name) by {
      assert name == StoredName("road.PNG", Token);
      RoadPhotoAccepted();
      StoredNameIsPlain("road.PNG", Token);
    }
    UploadUrlTarget(name);
    DeleteRemovesRowAndFile(created.state, 1, o);
  }

  /** A report with a GIF photo: the photo is refused, yet the report is created, without a photo and without a file. */
  lemma GifScenario()
    ensures var empty := State(Columns, map[], {});
            var o := Oracle(2, Token, Written, Removes);
            var created := Create(empty, map["damage_type" := Some("crack")], Some(Upload("crack.gif")), o);
            && created.value.id == 2
            && created.value.photoUrl == None
            && created.state.dir == {}
            && GetById(created.state, 2) == Some(created.value)
  {
    GifIsRefused();
  }

  /**
    A column that create did not supply starts out NULL, and a later update
    that supplies it sets it, keeping the columns it does not supply.
   */
  lemma LateColumnIsSet()
    ensures var o := Oracle(1, Token, Written, Removes);
            var created := Create(State(Columns, map[], {}), map["damage_type" := Some("pothole")], None, o);
            var updated := Update(created.state, 1, map["location" := Some("Jl. Sudirman")], None, o);
            && created.value.fields["location"] == None
            && updated.value == Some(created.value.(fields := map["damage_type" := Some("pothole"), "location" := Some("Jl. Sudirman")]))
  {
    var o := Oracle(1, Token, Written, Removes);
    var created := Create(State(Columns, map[], {}), map["damage_type" := Some("pothole")], None, o);
    var patch := map["location" := Some("Jl. Sudirman")];
    var fields := Update(created.state, 1, patch, None, o).value.value.fields;
    assert fields.Keys == Columns;
    assert fields == map["damage_type" := Some("pothole"), "location" := Some("Jl. Sudirman")];
  }
}
